=== FILE: README.md ===
# Debate timer, modelled in Dafny

A model of the controller of a single-screen debate timer app. The app's
controller code is `Debate_Timer/ContentView.swift`.

A Start/Stop button starts and ends a session. While a session runs, a
periodic callback does two things:
- It shows the elapsed time as `m:ss`.
- It fires sensory alerts at three milestones: one minute elapsed, one minute
  to go, and the end of the speech.

After the end alert, a later alert stops the session automatically. The alerts
are a screen and torch flash plus, depending on the chosen signal, a vibration
and a system sound. A Test Alert button fires one alert while no session runs.

The model is pure and functional:

- `Decimal` renders natural numbers as decimal digit strings, as Swift's
  string interpolation does. It also reads digit strings back.
- `Display` builds the `m:ss` text from a whole number of elapsed seconds. It
  also has a parser for that text, which is the display's inverse.
- `Alerts` covers the signal enum and its picker labels, `vibrate_sound`, and
  the alert sequences the code issues. Each device call is represented as an
  event. The module also gives the screen colour right after those events.
- `Timer` covers:
  - the controller state: the session, the tick timer, and the three milestone
    flags;
  - the Start/Stop button and the Test Alert button;
  - the three milestone rules of `updateTimer`, run in the code's order;
  - `Advance`, the rule engine of one tick;
  - `Tick`, which is `Advance` plus the display text and the alert events.
- `Runs` feeds sequences of ticks and of user actions to the controller.
  Each tick of a run carries the speech length it reads, because
  `updateTimer` reads `end` afresh on every call (lines 111 and 116) and the
  Length picker (lines 62-65) stays live during a session. Only the near-end
  result fixes one length for the whole run. It proves what the per-tick
  rules add up to:
  - each alert fires at most once per session, and fires when its minute
    arrives;
  - the session stops on its own;
  - the end flag outlives every session;
  - the controller's invariant holds on every reachable state.

Elapsed time is a natural number of whole seconds. The code reads
`t = start_time.timeIntervalSinceNow` (line 101). That value is zero or
negative, since the session started in the past. Lines 102-103 compute
`Int(abs(t) / 60)` and `Int(abs(t.truncatingRemainder(dividingBy: 60)))`.
The remainder keeps the sign of `t`, and `abs` removes it. Both values are
therefore `⌊|t|⌋ / 60` and `⌊|t|⌋ % 60`, so a natural number of elapsed whole
seconds loses nothing.

## Behaviour of the code worth knowing

- **Starting does not reset the flags.** The Start branch (lines 45-50) only
  sets the start time and the timer. The first two flags are still clear
  when a session starts:
  - stopping (lines 41-44) and auto-stopping (lines 136-139) clear the first
    two flags;
  - so a reachable stopped state has them clear (`Runs.StartFromReachable`).
- **The end flag is never cleared.** Neither stopping nor auto-stopping
  (lines 41-44, 136-139) resets `third_flash`. Once one session has had its end
  alert, no later session in the same launch gets it
  (`Runs.EndAlertOncePerLaunch`). Such a session skips the end alert. It is stopped by the end of its first
  tick that is at or past the end minute and more than 15 seconds into it,
  and it issues the auto-stop alert
  (`Runs.FlaggedSessionStopsAtFirstLateTick`).
- **The end alert comes at end:01, not end:00.** The end branch needs
  `secs > 0` (line 117), so nothing fires at a whole minute
  (`Timer.NothingAtWholeMinute`). In a session whose end flag is clear, the end
  alert has fired by the end of the first tick that is at or past the end
  minute with a non-zero seconds field. It fires exactly once
  (`Runs.EndAlertOnce`).
- **A stopped timer keeps running.** Stopping only drops the reference to
  the repeating timer (`timer = nil`, lines 42 and 136) and never invalidates
  it. The model therefore lets ticks arrive in any number and any order:
  - a stopped controller ignores them (`Timer.Advance`);
  - at most once per milestone (`Runs.AtMostOnce`) holds for any sequence of
    ticks, each reading its own speech length;
  - `Runs.EndAlertOnce` and `Runs.SessionStopsBySecondLateTick` also hold for
    ticks in any order, each reading its own speech length.

## Model

| member | source | states |
|---|---|---|
| Decimal.FromNat | Debate_Timer/ContentView.swift:104 | The interpolated number is canonical (no leading zero except "0"), reads back as the number, and is one digit exactly below 10 |
| Decimal.CanonicalRoundTrip | Debate_Timer/ContentView.swift:104 | Every canonical digit string is the rendering of the value it denotes |
| Decimal.RenderingIsInjective | Debate_Timer/ContentView.swift:104 | Two numbers are rendered alike exactly when they are equal |
| Decimal.CanonicalIsInjective | Debate_Timer/ContentView.swift:104 | Two canonical digit strings have the same value exactly when they are the same string |
| Display.Minutes | Debate_Timer/ContentView.swift:102 | The whole minutes are the number of full minutes that fit in the elapsed time |
| Display.Seconds | Debate_Timer/ContentView.swift:103 | The seconds are below 60 and are what the whole minutes leave of the elapsed time |
| Display.SecondsField | Debate_Timer/ContentView.swift:104 | The seconds field is two digits, reads back as the seconds, and starts with "0" exactly when the seconds are below 10 |
| Display.Format | Debate_Timer/ContentView.swift:102-104 | The display has a colon three characters from the end. The part before it is the canonical whole minutes. The two digits after it are the seconds of the current minute, zero-padded exactly below 10 |
| Display.ParseFormat | Debate_Timer/ContentView.swift:102-104 | Every displayed text parses back to the elapsed time it was made from |
| Display.FormatParse | Debate_Timer/ContentView.swift:102-104 | Every text the parser accepts is exactly the display of the time it parses to |
| Display.FormatInjective | Debate_Timer/ContentView.swift:102-104 | Two elapsed times share a display exactly when they are equal |
| Alerts.SignalName | Debate_Timer/ContentView.swift:189-195 | The picker labels are "Flash", "Vibrate" and "Sound" |
| Alerts.SignalNameInjective | Debate_Timer/ContentView.swift:189-195 | Two signals share a label exactly when they are the same signal |
| Alerts.VibrateSoundChannels | Debate_Timer/ContentView.swift:156-164 | A vibration is issued exactly for Vibrate and Sound, and sound 1009 exactly for Sound. Nothing else is issued, and the vibration comes first |
| Alerts.AlertShape | Debate_Timer/ContentView.swift:117-126 | An alert is one immediate flash followed by exactly the signal's feedback, and schedules no delayed flash. The end alert is an alert followed by flashes 400 ms and 800 ms later |
| Alerts.AlertRepeats | Debate_Timer/ContentView.swift:106-125 | A plain alert schedules no repeat flash of any delay, and the end alert schedules one |
| Alerts.SchedulesRepeatAppend | Debate_Timer/ContentView.swift:117-135 | Events issued one after another schedule a repeat flash exactly when one of the parts does |
| Alerts.ScreenAfter | Debate_Timer/ContentView.swift:144-154 | The screen is white right after a sequence of events exactly when it was white or the sequence has a flash. Without a flash it keeps its colour |
| Alerts.AlertsTurnScreenWhite | Debate_Timer/ContentView.swift:144-154 | Every alert, single or triple, leaves the screen white whatever the signal. Vibration and sound never change the screen |
| Timer.Press | Debate_Timer/ContentView.swift:39-50 | The button flips between running and stopped, and keeps the timer held exactly while running. Stopping clears the first two flags; starting keeps them. The end flag is never touched |
| Timer.TestAlert | Debate_Timer/ContentView.swift:76-81 | The button works exactly when no timer is held, and then issues a flash followed by exactly the signal's feedback |
| Timer.TestAlertEnabledIffStopped | Debate_Timer/ContentView.swift:76-81 | While the timer is held exactly during a session, the test button works exactly when no session runs |
| Timer.AlertForChannels | Debate_Timer/ContentView.swift:106-135 | Every milestone's alert has a flash and the signal's feedback. Only the end-alert branch and the auto-stop branch schedule the repeat flashes |
| Timer.AlertForRepeats | Debate_Timer/ContentView.swift:106-135 | A milestone's alert schedules repeat flashes, of any delay, exactly for the end-alert and auto-stop branches |
| Timer.OneMinuteRule | Debate_Timer/ContentView.swift:106-110 | The one-minute alert fires exactly at minute 1 with its flag clear, sets the flag, and changes nothing else |
| Timer.NearEndRule | Debate_Timer/ContentView.swift:111-115 | The near-end alert fires exactly at minute end-1 with its flag clear, sets the flag, and changes nothing else |
| Timer.EndRule | Debate_Timer/ContentView.swift:116-141 | Past the end, the end alert fires exactly when secs > 0 and the end flag is clear, and sets that flag. Otherwise the auto-stop fires exactly when secs > 15, dropping the session and the first two flags |
| Timer.Rules | Debate_Timer/ContentView.swift:106-141 | Run in order, each rule fires exactly under its own condition, each at most once and in rule order. The resulting state is stated field by field |
| Timer.Advance | Debate_Timer/ContentView.swift:99-141 | A stopped controller ignores a tick. Otherwise each milestone fires exactly under its condition on elapsed/60 and elapsed%60, in rule order. The end flag is only ever set, and an auto-stop drops the session and the first two flags |
| Timer.Tick | Debate_Timer/ContentView.swift:99-104 | A running tick shows a text that parses back to the elapsed time. A stopped tick shows nothing new and issues nothing. The state and milestones are the rule engine's |
| Timer.RulesFired | Debate_Timer/ContentView.swift:106-141 | The rules fire exactly the list of the milestones whose conditions hold, in rule order |
| Timer.FiresDue | Debate_Timer/ContentView.swift:106-141 | A tick fires exactly the due milestones, listed in rule order. Due milestones are defined from the state before the tick alone |
| Timer.AutoStopNeedsEndFlag | Debate_Timer/ContentView.swift:116-140 | An auto-stop happens only in a running session whose end flag is already set, and never on the same tick as the end alert |
| Timer.NothingAtWholeMinute | Debate_Timer/ContentView.swift:116-127 | At a whole minute, neither end branch fires and the session keeps running |
| Timer.EventsOfChannels | Debate_Timer/ContentView.swift:106-135 | The events of a list of milestones flash exactly when the list is non-empty and carry the signal's feedback. They schedule the 400 ms repeat flash exactly when an end milestone is in the list |
| Timer.EventsOfRepeats | Debate_Timer/ContentView.swift:106-135 | The events of a list of milestones schedule repeat flashes of any delay exactly when an end milestone is in the list |
| Timer.TickEvents | Debate_Timer/ContentView.swift:106-154 | A tick issues its milestones' alerts in rule order. It flashes exactly when a milestone fired. It vibrates exactly when one fired under Vibrate or Sound, and chimes exactly when one fired under Sound. It schedules repeat flashes, the 400 ms one and any at all, exactly when an end milestone fired. The screen is white right after it exactly when it was white or a milestone fired |
| Timer.TwoMinuteSpeechDoubleAlert | Debate_Timer/ContentView.swift:106-115 | With a two-minute speech, minute 1 fires both the one-minute and the near-end alerts, one-minute first, as two alerts |
| Runs.TickQuiets | Debate_Timer/ContentView.swift:106-139 | A tick never fires a milestone whose flag is set, or any milestone once stopped. A milestone it fires cannot fire again |
| Runs.RunReadings | Debate_Timer/ContentView.swift:99-143 | For ticks that each read their own speech length: ticks of a stopped controller do nothing, the end flag afterwards is set exactly when it was set or the run fired the end alert, a run still running at the end never auto-stopped, and consistency is kept |
| Runs.QuietReadings | Debate_Timer/ContentView.swift:106-139 | From a state where a milestone cannot fire, no run of readings fires it, whatever lengths the ticks read |
| Runs.AtMostOnce | Debate_Timer/ContentView.swift:99-143 | In any run of ticks, in any order and any number, each reading its own speech length, each milestone fires at most once |
| Runs.OneMinuteAlertOnce | Debate_Timer/ContentView.swift:106-110 | A running session with nondecreasing ticks that reach minute 1 fires the one-minute alert exactly once, whenever every tick reads a speech of at least one minute |
| Runs.NearEndAlertOnce | Debate_Timer/ContentView.swift:111-115 | A running session with nondecreasing ticks that all read one speech length and reach minute end-1 fires the near-end alert exactly once |
| Runs.EndAlertOnce | Debate_Timer/ContentView.swift:116-126 | A running session with its end flag clear and some tick past the end fires the end alert exactly once and ends with the flag set, whatever the order of ticks and the lengths they read. The alert has fired by the end of every tick past the end |
| Runs.EndAlertBy | Debate_Timer/ContentView.swift:116-126 | With the end flag clear, the ticks up to and including any tick past the end, at the length it reads, fire the end alert |
| Runs.FlaggedSessionStopsAtFirstLateTick | Debate_Timer/ContentView.swift:116-140 | A running session whose end flag is set fires the auto-stop exactly once and never the end alert, whatever lengths the ticks read. It is stopped by the end of every late tick, so by the first one |
| Runs.FlaggedStopsBy | Debate_Timer/ContentView.swift:127-140 | With the end flag set, the ticks up to and including any late tick, at the length it reads, leave the session stopped |
| Runs.SessionStopsBySecondLateTick | Debate_Timer/ContentView.swift:116-140 | A running session with its end flag clear and two late ticks ends stopped, whatever lengths the ticks read. The end alert and the auto-stop each fire exactly once |
| Runs.StopsAfterEndTick | Debate_Timer/ContentView.swift:116-140 | After a first tick that fires the end alert, the session stops at a later late tick, with one end alert and one auto-stop, whatever lengths the ticks read |
| Runs.ClearTick | Debate_Timer/ContentView.swift:116-140 | A tick of a running session with its end flag clear never stops it. It fires the end alert and sets the flag exactly when it is past the end |
| Runs.UnflaggedTick | Debate_Timer/ContentView.swift:116-140 | A tick of a running session with its end flag clear fires the end alert once if it is past the end and never otherwise. A late tick is past the end |
| Runs.FlaggedTick | Debate_Timer/ContentView.swift:116-140 | A tick of a running session with its end flag set never fires the end alert and keeps the flag. It auto-stops exactly when it is late, and keeps the session running otherwise |
| Runs.Execute | Debate_Timer/ContentView.swift:39-143 | Over any actions the invariant is kept. The end flag ends set exactly when it started set or an end alert fired, and an end flag set at the start prevents any end alert |
| Runs.StepState | Debate_Timer/ContentView.swift:39-143 | The state after one action is the state part of that action's output. One button press or tick keeps the invariant, sets the end flag exactly when it fires the end alert, and never fires it with the flag set |
| Runs.StartFromReachable | Debate_Timer/ContentView.swift:39-50 | From any reachable stopped state, Start gives a running session with the first two flags clear. Its end flag is set exactly when some earlier session had its end alert |
| Runs.EndAlertOncePerLaunch | Debate_Timer/ContentView.swift:116-126 | Once an end alert has fired, no later actions ever fire another |
| Runs.StopThenStart | Debate_Timer/ContentView.swift:39-50 | Stopping and restarting a running session gives a running session with the first two flags clear and the end flag unchanged |

Some functions only build event lists or results. Their properties are
stated by the lemma or function named in the row for them:
- `Alerts.VibrateSound` (lines 156-164): `Alerts.VibrateSoundChannels`.
- `Alerts.Alert` and `Alerts.TripleAlert` (lines 107-108, 117-125):
  `Alerts.AlertShape` and `Alerts.AlertsTurnScreenWhite`.
- `Alerts.SchedulesRepeat` (lines 119-124, 129-134): `Alerts.AlertRepeats`
  and `Alerts.SchedulesRepeatAppend`.
- `Timer.AlertFor` (lines 106-135): `Timer.AlertForChannels` and
  `Timer.AlertForRepeats`.
- `Timer.EventsOf` (lines 106-135): `Timer.EventsOfChannels`,
  `Timer.EventsOfRepeats` and `Timer.TickEvents`.
- `Runs.StepOutput` (lines 39-143): `Runs.StepState`, whose result is
  `StepOutput`'s state, and `Runs.Execute`.

## Left out

- SwiftUI layout is not modelled: the text, the colours, the "Stopped"
  label, the Length and Alert Type pickers, and the `onAppear` idle-timer
  switch. The model has only the state these read.
- Persistence is not modelled. The two `@AppStorage` preferences become
  parameters: the speech length of each tick and the signal of each tick and
  test alert.
- Clock readings are not modelled. `Date()` and `timeIntervalSinceNow` become
  the elapsed whole seconds passed to each tick.
- Run-loop scheduling is not modelled: the 0.1 s repeating timer, and the
  0.2 s, 0.4 s and 0.8 s `asyncAfter` callbacks. Ticks are explicit calls.
  Delayed repeat flashes are `DelayedFlash` events. The flash-off 0.2 s later
  happens after the instant `ScreenAfter` describes.
- Device APIs are not modelled: `toggleTorch` with `AVCaptureDevice`, the
  `Vibration` enum's generators, and `AudioServicesPlaySystemSound`. Each call
  becomes an event in the order the code issues it. A torch flash and a screen
  flash are one `ScreenFlash` event.
- Advance: takes the speech length as a natural number. The stored preference
  is a Swift `Int`, and the picker offers only 5 and 7.
- Tick: a stopped tick's display is `None`, meaning the displayed text is left
  alone. The "Stopped" label the screen shows then is layout.
- NearEndAlertOnce: assumes one speech length for the whole run. With
  lengths that change mid-session the near-end alert can be skipped: the
  readings (301 s, 5 min), (320 s, 5 min), (330 s, 6 min) fire the end alert,
  then auto-stop, and only then reach minute end-1 of the new length.
- RunReadings: returns the state and the fired milestones but no events. The
  events of each tick are `EventsOf` of that tick's milestones
  (`Timer.TickEvents`).

=== FILE: alerts.dfy ===
/**
 The alert channels. An alert is a flash of the screen (and torch) followed
 by the feedback the chosen signal asks for; the end-of-speech alert adds two
 delayed repeat flashes. Device calls and run-loop scheduling are not
 modelled: each becomes an event in the order the code issues it.
 */
module Alerts {

  /** The user's alert preference, in the order the picker lists it. */
  datatype Signal = Flash | Vibrate | Sound

  /** The system sound played for the `Sound` signal. */
  const ChimeSoundId: nat := 1009

  /** Delays, in milliseconds, of the two repeat flashes of a triple alert. */
  const FirstRepeatMs: nat := 400
  const SecondRepeatMs: nat := 800

  datatype Event =
    | ScreenFlash                  // screen turns white and the torch lights, both for 0.2 s
    | Haptic                       // an error-style notification vibration
    | SystemSound(soundId: nat)    // a system sound by identifier
    | DelayedFlash(delayMs: nat)   // a ScreenFlash scheduled `delayMs` after the alert

  /** The label the alert-type picker shows for a signal. */
  function SignalName(signal: Signal): (name: string)
    ensures signal == Flash ==> name == "Flash"
    ensures signal == Vibrate ==> name == "Vibrate"
    ensures signal == Sound ==> name == "Sound"
  {
    match signal
    case Flash => "Flash"
    case Vibrate => "Vibrate"
    case Sound => "Sound"
  }

  /** Different signals carry different labels. */
  lemma SignalNameInjective(a: Signal, b: Signal)
    ensures SignalName(a) == SignalName(b) <==> a == b
  {
  }

  /** The haptic and sound feedback for a signal. */
  function VibrateSound(signal: Signal): seq<Event> {
    (if signal == Vibrate || signal == Sound then [Haptic] else [])
    + (if signal == Sound then [SystemSound(ChimeSoundId)] else [])
  }

  /** A vibration comes with the Vibrate and Sound signals, the chime with
      Sound alone, nothing else is issued, and the vibration comes first. */
  lemma VibrateSoundChannels(signal: Signal)
    ensures Haptic in VibrateSound(signal) <==> signal == Vibrate || signal == Sound
    ensures SystemSound(ChimeSoundId) in VibrateSound(signal) <==> signal == Sound
    ensures forall ev :: ev in VibrateSound(signal) ==> ev == Haptic || ev == SystemSound(ChimeSoundId)
    ensures forall i, j :: 0 <= i < j < |VibrateSound(signal)| ==>
              VibrateSound(signal)[i] == Haptic && VibrateSound(signal)[j] == SystemSound(ChimeSoundId)
  {
  }

  /** One alert: a flash, then the signal's feedback. */
  function Alert(signal: Signal): seq<Event> {
    [ScreenFlash] + VibrateSound(signal)
  }

  /** The end-of-speech alert: one alert and two repeat flashes 0.4 s and
      0.8 s later. */
  function TripleAlert(signal: Signal): seq<Event> {
    Alert(signal) + [DelayedFlash(FirstRepeatMs), DelayedFlash(SecondRepeatMs)]
  }

  /** The events schedule a delayed repeat flash, whatever its delay. */
  predicate SchedulesRepeat(events: seq<Event>) {
    exists ev :: ev in events && ev.DelayedFlash?
  }

  /** Events issued one after another schedule a repeat flash exactly when
      one of the parts does. */
  lemma SchedulesRepeatAppend(a: seq<Event>, b: seq<Event>)
    ensures SchedulesRepeat(a + b) <==> SchedulesRepeat(a) || SchedulesRepeat(b)
  {
    if SchedulesRepeat(a + b) {
      var ev :| ev in a + b && ev.DelayedFlash?;
      assert ev in a || ev in b;
    }
  }

  /** Every alert opens with an immediate flash and carries exactly the
      signal's feedback; a triple alert is an alert followed by the two
      delayed flashes, and only triple alerts schedule flashes. */
  lemma AlertShape(signal: Signal)
    ensures |Alert(signal)| >= 1 && Alert(signal)[0] == ScreenFlash
    ensures Alert(signal)[1..] == VibrateSound(signal)
    ensures ScreenFlash !in VibrateSound(signal)
    ensures forall ms :: DelayedFlash(ms) !in Alert(signal)
    ensures |TripleAlert(signal)| == |Alert(signal)| + 2
    ensures TripleAlert(signal)[..|Alert(signal)|] == Alert(signal)
    ensures TripleAlert(signal)[|Alert(signal)|..] == [DelayedFlash(400), DelayedFlash(800)]
  {
    VibrateSoundChannels(signal);
  }

  /** A plain alert schedules no repeat flash of any delay; a triple alert
      does. */
  lemma AlertRepeats(signal: Signal)
    ensures !SchedulesRepeat(Alert(signal))
    ensures SchedulesRepeat(TripleAlert(signal))
  {
    VibrateSoundChannels(signal);
    assert DelayedFlash(FirstRepeatMs) in TripleAlert(signal);
  }

  datatype Colour = Black | White

  /** The screen colour right after a sequence of events has been issued
      from colour `c`: a flash turns it white; the flash-off 0.2 s later and
      the delayed repeat flashes happen after this instant. */
  function ScreenAfter(c: Colour, events: seq<Event>): (r: Colour)
    ensures r == White <==> c == White || ScreenFlash in events
    ensures ScreenFlash !in events ==> r == c
    decreases |events|
  {
    if |events| == 0 then
      c
    else
      var next := if events[0] == ScreenFlash then White else c;
      assert events == [events[0]] + events[1..];
      ScreenAfter(next, events[1..])
  }

  /** Every alert, plain or triple and whatever the signal, leaves the
      screen white, and no signal changes what the flash does. */
  lemma {:induction false} AlertsTurnScreenWhite(c: Colour, signal: Signal)
    ensures ScreenAfter(c, Alert(signal)) == White
    ensures ScreenAfter(c, TripleAlert(signal)) == White
    ensures ScreenAfter(c, VibrateSound(signal)) == c
  {
    AlertShape(signal);
    assert ScreenFlash in Alert(signal);
    assert TripleAlert(signal)[0] == ScreenFlash;
  }
}

=== FILE: decimal.dfy ===
/**
 Decimal rendering of natural numbers, as Swift's string interpolation of a
 non-negative `Int` produces it: the shortest run of ASCII digits, with no
 leading zero except for the number zero itself. `ValueOf` is the reading
 back of a digit string, the partner that every rendering lemma is stated
 against.
 */
module Decimal {

  predicate IsDigit(c: char) {
    '0' <= c <= '9'
  }

  predicate AllDigits(s: string) {
    forall i :: 0 <= i < |s| ==> IsDigit(s[i])
  }

  /** Non-empty, all digits, and no leading zero unless the string is "0". */
  predicate IsCanonical(s: string) {
    && |s| >= 1
    && AllDigits(s)
    && (s[0] == '0' ==> |s| == 1)
  }

  function DigitValue(c: char): (d: nat)
    requires IsDigit(c)
    ensures d < 10
  {
    (c as int - '0' as int) as nat
  }

  function DigitChar(d: nat): (c: char)
    requires d < 10
    ensures IsDigit(c)
    ensures DigitValue(c) == d
    ensures c == '0' <==> d == 0
  {
    ('0' as int + d) as char
  }

  /** The number a digit string denotes, most significant digit first. */
  function ValueOf(s: string): nat
    requires AllDigits(s)
    decreases |s|
  {
    if |s| == 0 then 0 else 10 * ValueOf(s[..|s| - 1]) + DigitValue(s[|s| - 1])
  }

  /** The decimal rendering of `n`: canonical, and it reads back as `n`. */
  function FromNat(n: nat): (r: string)
    ensures IsCanonical(r)
    ensures ValueOf(r) == n
    ensures |r| == 1 <==> n < 10
    decreases n
  {
    if n < 10 then
      [DigitChar(n)]
    else
      var prefix := FromNat(n / 10);
      var r := prefix + [DigitChar(n % 10)];
      assert r[..|r| - 1] == prefix;
      r
  }

  /** Only strings of zeros denote zero. */
  lemma {:induction false} ZeroValueAllZeros(s: string)
    requires AllDigits(s)
    requires ValueOf(s) == 0
    ensures forall i :: 0 <= i < |s| ==> s[i] == '0'
    decreases |s|
  {
    if |s| > 0 {
      var p := s[..|s| - 1];
      ZeroValueAllZeros(p);
      assert DigitValue(s[|s| - 1]) == 0;
      forall i | 0 <= i < |s|
        ensures s[i] == '0'
      {
        if i < |s| - 1 {
          assert s[i] == p[i];
        }
      }
    }
  }

  /** A canonical digit string is exactly the rendering of the value it denotes. */
  lemma {:induction false} CanonicalRoundTrip(s: string)
    requires IsCanonical(s)
    ensures FromNat(ValueOf(s)) == s
    decreases |s|
  {
    if |s| > 1 {
      var p := s[..|s| - 1];
      var c := s[|s| - 1];
      assert p[0] == s[0];
      assert IsCanonical(p);
      if ValueOf(p) == 0 {
        ZeroValueAllZeros(p);
        assert false;
      }
      CanonicalRoundTrip(p);
      var n := ValueOf(s);
      assert n / 10 == ValueOf(p) && n % 10 == DigitValue(c);
      assert DigitChar(DigitValue(c)) == c;
      assert s == p + [c];
    } else {
      assert DigitChar(DigitValue(s[0])) == s[0];
    }
  }

  /** Two numbers share a rendering exactly when they are equal. */
  lemma RenderingIsInjective(m: nat, n: nat)
    ensures FromNat(m) == FromNat(n) <==> m == n
  {
  }

  /** Two canonical strings with the same value are the same string. */
  lemma CanonicalIsInjective(s: string, t: string)
    requires IsCanonical(s) && IsCanonical(t)
    ensures ValueOf(s) == ValueOf(t) <==> s == t
  {
    if ValueOf(s) == ValueOf(t) {
      CanonicalRoundTrip(s);
      CanonicalRoundTrip(t);
    }
  }
}

=== FILE: display.dfy ===
/**
 The text the timer shows while a session runs: whole minutes, a colon, and
 the seconds of the current minute zero-padded to two digits ("0:07",
 "4:59", "12:30"). Elapsed time is a whole number of seconds; the clock
 reading and its float-to-Int truncation sit outside this model.
 */
module Display {
  import Decimal
  import opened Options

  /** The whole minutes elapsed: the largest number of full minutes that fit
      in the elapsed time. */
  function Minutes(elapsed: nat): (mins: nat)
    ensures 60 * mins <= elapsed < 60 * mins + 60
  {
    elapsed / 60
  }

  /** The seconds into the current minute: what is left of the elapsed time
      after the whole minutes. */
  function Seconds(elapsed: nat): (secs: nat)
    ensures secs < 60
    ensures 60 * Minutes(elapsed) + secs == elapsed
  {
    elapsed % 60
  }

  /** The two-character seconds field: a "0" in front of single digits. */
  function SecondsField(secs: nat): (r: string)
    requires secs < 60
    ensures |r| == 2 && Decimal.AllDigits(r)
    ensures Decimal.ValueOf(r) == secs
    ensures r[0] == '0' <==> secs < 10
  {
    var digits := Decimal.FromNat(secs);
    var r := (if secs < 10 then "0" else "") + digits;
    assert r[..1] == "0" ==> Decimal.ValueOf(r[..1]) == 0 by {
      assert "0"[..0] == "";
    }
    if secs < 10 then
      assert r[..1] == "0";
      r
    else
      assert Decimal.FromNat(secs)[..1] == Decimal.FromNat(secs / 10);
      r
  }

  /** The displayed text for `elapsed` seconds. */
  function Format(elapsed: nat): (r: string)
    ensures |r| >= 4 && r[|r| - 3] == ':'
    ensures Decimal.IsCanonical(r[..|r| - 3])
    ensures Decimal.ValueOf(r[..|r| - 3]) == Minutes(elapsed)
    ensures Decimal.AllDigits(r[|r| - 2..])
    ensures Decimal.ValueOf(r[|r| - 2..]) == Seconds(elapsed)
    ensures r[|r| - 2] == '0' <==> Seconds(elapsed) < 10
  {
    var mins := Decimal.FromNat(Minutes(elapsed));
    var secs := SecondsField(Seconds(elapsed));
    var r := mins + ":" + secs;
    assert r[..|r| - 3] == mins;
    assert r[|r| - 2..] == secs;
    r
  }

  /** Reads a displayed text back into elapsed seconds; None for any text
      the display cannot show. */
  function Parse(s: string): (r: Option<nat>)
    ensures r.Some? ==> |s| >= 4 && s[|s| - 3] == ':'
    ensures r.Some? ==> Decimal.IsCanonical(s[..|s| - 3]) && Minutes(r.value) == Decimal.ValueOf(s[..|s| - 3])
    ensures r.Some? ==> Decimal.AllDigits(s[|s| - 2..]) && Seconds(r.value) == Decimal.ValueOf(s[|s| - 2..])
  {
    if |s| < 4 || s[|s| - 3] != ':' then
      None
    else
      var mins := s[..|s| - 3];
      var secs := s[|s| - 2..];
      if Decimal.IsCanonical(mins) && Decimal.AllDigits(secs) && Decimal.ValueOf(secs) < 60 then
        Some(60 * Decimal.ValueOf(mins) + Decimal.ValueOf(secs))
      else
        None
  }

  /** Every displayed text reads back as the elapsed time it was made from. */
  lemma ParseFormat(elapsed: nat)
    ensures Parse(Format(elapsed)) == Some(elapsed)
  {
  }

  /** A two-digit field whose value is below 60 is exactly the padded field. */
  lemma {:induction false} SecondsFieldUnique(t: string)
    requires |t| == 2 && Decimal.AllDigits(t) && Decimal.ValueOf(t) < 60
    ensures SecondsField(Decimal.ValueOf(t)) == t
  {
    var v := Decimal.ValueOf(t);
    assert t[..1] == [t[0]];
    assert v == 10 * Decimal.DigitValue(t[0]) + Decimal.DigitValue(t[1]);
    if v < 10 {
      assert Decimal.DigitValue(t[0]) == 0;
      assert Decimal.DigitChar(Decimal.DigitValue(t[1])) == t[1];
      assert t == "0" + [t[1]];
    } else {
      assert t[0] != '0';
      Decimal.CanonicalRoundTrip(t);
    }
  }

  /** Every text the parser accepts is the display of what it parses to. */
  lemma FormatParse(s: string)
    requires Parse(s).Some?
    ensures Format(Parse(s).value) == s
  {
    var mins := s[..|s| - 3];
    var secs := s[|s| - 2..];
    var e := Parse(s).value;
    Decimal.CanonicalRoundTrip(mins);
    SecondsFieldUnique(secs);
    assert Minutes(e) == Decimal.ValueOf(mins);
    assert Seconds(e) == Decimal.ValueOf(secs);
    assert s == mins + ":" + secs;
  }

  /** Different elapsed times never share a display. */
  lemma FormatInjective(a: nat, b: nat)
    ensures Format(a) == Format(b) <==> a == b
  {
    if Format(a) == Format(b) {
      ParseFormat(a);
      ParseFormat(b);
    }
  }
}

=== FILE: options.dfy ===
/** An optional value: the display text a tick may leave alone, the alert a
    disabled button does not issue, the text the parser rejects. */
module Options {
  datatype Option<T> = None | Some(value: T)
}

=== FILE: runs.dfy ===
/**
 Runs of the controller: a sequence of ticks within one session, each
 reading the elapsed time and the speech length, and a
 sequence of user actions and ticks across sessions. The lemmas here are
 what the per-tick rules add up to: each milestone alert fires at most once
 per session, fires when its minute is reached, the end flag outlives
 every session, and the controller's invariants hold from the first screen
 on.
 */
module Runs {
  import opened Alerts
  import opened Timer

  /** One call of the tick callback: the elapsed time and the speech length
      it reads. The Length picker stays live during a session, so the length
      can change from one tick to the next. */
  datatype Reading = Reading(elapsed: nat, endMinutes: nat)

  /** Feeds a sequence of readings to the tick callback, in order: the final
      state and every milestone fired, in order. The events of the run are
      `EventsOf` of those milestones. */
  function RunReadings(s: TimerState, readings: seq<Reading>): (r: Step)
    ensures !s.running ==> r == Step(s, [])
    ensures r.state.thirdFlash == (s.thirdFlash || EndReached in r.fired)
    ensures r.state.running ==> s.running && AutoStop !in r.fired
    ensures Consistent(s) ==> Consistent(r.state)
    decreases |readings|
  {
    if |readings| == 0 then
      Step(s, [])
    else
      var first := Advance(s, readings[0].elapsed, readings[0].endMinutes);
      var rest := RunReadings(first.state, readings[1..]);
      Step(rest.state, first.fired + rest.fired)
  }

  /** The state and milestones of the first reading of a run. */
  function First(s: TimerState, rs: seq<Reading>): Step
    requires |rs| > 0
  {
    Advance(s, rs[0].elapsed, rs[0].endMinutes)
  }

  /** `m` cannot fire again from `s`: the session is over, or its flag is set. */
  predicate Quiet(s: TimerState, m: Milestone) {
    !s.running ||
    match m
    case OneMinute => s.firstFlash
    case NearEnd => s.secondFlash
    case EndReached => s.thirdFlash
    case AutoStop => false
  }

  /** A tick never fires a quiet milestone and leaves it quiet; a milestone
      it fires is quiet afterwards. */
  lemma TickQuiets(s: TimerState, elapsed: nat, endMinutes: nat, m: Milestone)
    ensures Quiet(s, m) ==> m !in Advance(s, elapsed, endMinutes).fired
    ensures Quiet(s, m) || m in Advance(s, elapsed, endMinutes).fired ==>
              Quiet(Advance(s, elapsed, endMinutes).state, m)
  {
  }

  /** From a state where `m` is quiet, no run of readings fires it, whatever
      lengths the ticks read. */
  lemma {:induction false} QuietReadings(s: TimerState, readings: seq<Reading>, m: Milestone)
    requires Quiet(s, m)
    ensures m !in RunReadings(s, readings).fired
    decreases |readings|
  {
    if |readings| > 0 {
      TickQuiets(s, readings[0].elapsed, readings[0].endMinutes, m);
      QuietReadings(Advance(s, readings[0].elapsed, readings[0].endMinutes).state, readings[1..], m);
    }
  }

  /** Milestones listed in strictly increasing rule order occur once at most. */
  lemma {:induction false} RankedHasNoRepeats(fired: seq<Milestone>, m: Milestone)
    requires Ranked(fired)
    ensures multiset(fired)[m] == if m in fired then 1 else 0
    decreases |fired|
  {
    if |fired| > 0 {
      assert fired == [fired[0]] + fired[1..];
      RankedHasNoRepeats(fired[1..], m);
      if fired[0] == m {
        assert m !in fired[1..] by {
          forall k | 0 <= k < |fired[1..]|
            ensures fired[1..][k] != m
          {
            RankedHeadIsLeast(fired, k + 1);
          }
        }
      }
    }
  }

  /** Whatever the elapsed times and the speech lengths they read, each
      milestone fires at most once in a run of readings. Stale timers left
      running after a stop feed the same callback, so this holds however
      many timers are ticking. */
  lemma {:induction false} AtMostOnce(s: TimerState, readings: seq<Reading>, m: Milestone)
    ensures multiset(RunReadings(s, readings).fired)[m] <= 1
    decreases |readings|
  {
    if |readings| > 0 {
      var first := Advance(s, readings[0].elapsed, readings[0].endMinutes);
      var rest := RunReadings(first.state, readings[1..]);
      assert RunReadings(s, readings).fired == first.fired + rest.fired;
      RankedHasNoRepeats(first.fired, m);
      TickQuiets(s, readings[0].elapsed, readings[0].endMinutes, m);
      if m in first.fired {
        QuietReadings(first.state, readings[1..], m);
      } else {
        AtMostOnce(first.state, readings[1..], m);
      }
    }
  }

  /** The run fires `m` exactly once when its first reading does and the
      rest of the run cannot. */
  lemma FiresAtFirstTick(s: TimerState, rs: seq<Reading>, m: Milestone)
    requires |rs| > 0 && m in First(s, rs).fired
    ensures multiset(RunReadings(s, rs).fired)[m] == 1
  {
    var first := First(s, rs);
    var rest := RunReadings(first.state, rs[1..]);
    TickQuiets(s, rs[0].elapsed, rs[0].endMinutes, m);
    QuietReadings(first.state, rs[1..], m);
    RankedHasNoRepeats(first.fired, m);
    CountAppend(first.fired, rest.fired, m);
    assert RunReadings(s, rs).fired == first.fired + rest.fired;
  }

  lemma CountAppend(a: seq<Milestone>, b: seq<Milestone>, m: Milestone)
    ensures multiset(a + b)[m] == multiset(a)[m] + multiset(b)[m]
  {
    assert multiset(a + b) == multiset(a) + multiset(b);
  }

  lemma CountAppendAbsent(a: seq<Milestone>, b: seq<Milestone>, m: Milestone)
    requires m !in a
    ensures multiset(a + b)[m] == multiset(b)[m]
  {
    CountAppend(a, b, m);
  }

  /** A first reading that does not fire `m` leaves the run's count of `m`,
      and its final state, to the rest of the run. */
  lemma SkipTick(s: TimerState, rs: seq<Reading>, m: Milestone)
    requires |rs| > 0 && m !in First(s, rs).fired
    ensures multiset(RunReadings(s, rs).fired)[m]
         == multiset(RunReadings(First(s, rs).state, rs[1..]).fired)[m]
    ensures RunReadings(s, rs).state == RunReadings(First(s, rs).state, rs[1..]).state
  {
    var first := First(s, rs);
    var rest := RunReadings(first.state, rs[1..]);
    CountAppendAbsent(first.fired, rest.fired, m);
    assert RunReadings(s, rs) == Step(rest.state, first.fired + rest.fired);
  }

  /** Elapsed times that never go back, as one clock gives them. */
  predicate Nondecreasing(rs: seq<Reading>) {
    forall i, j :: 0 <= i < j < |rs| ==> rs[i].elapsed <= rs[j].elapsed
  }

  /** Every reading has a speech length of at least one minute. */
  predicate LengthsPositive(rs: seq<Reading>) {
    forall k :: 0 <= k < |rs| ==> rs[k].endMinutes >= 1
  }

  /** Every reading has the speech length `endMinutes`. */
  predicate OneLength(rs: seq<Reading>, endMinutes: nat) {
    forall k :: 0 <= k < |rs| ==> rs[k].endMinutes == endMinutes
  }

  /** The tail of a run keeps each of the run-wide properties, and a later
      reading is no earlier than the first. */
  lemma ReadingsTail(rs: seq<Reading>, i: nat, endMinutes: nat)
    requires 0 < i < |rs|
    ensures rs[1..][i - 1] == rs[i]
    ensures Nondecreasing(rs) ==> Nondecreasing(rs[1..]) && rs[0].elapsed <= rs[i].elapsed
    ensures LengthsPositive(rs) ==> LengthsPositive(rs[1..])
    ensures OneLength(rs, endMinutes) ==> OneLength(rs[1..], endMinutes)
  {
  }

  /** In a session of nondecreasing readings that reaches minute 1, with
      every speech length at least one minute, the one-minute alert fires
      exactly once: no earlier tick can stop the session. */
  lemma {:induction false} OneMinuteAlertOnce(s: TimerState, rs: seq<Reading>, i: nat)
    requires s.running && !s.firstFlash
    requires Nondecreasing(rs) && LengthsPositive(rs)
    requires i < |rs| && rs[i].elapsed / 60 == 1
    ensures multiset(RunReadings(s, rs).fired)[OneMinute] == 1
    decreases |rs|
  {
    if i == 0 || rs[0].elapsed / 60 == 1 {
      FiresAtFirstTick(s, rs, OneMinute);
    } else {
      ReadingsTail(rs, i, 0);
      var first := First(s, rs);
      assert rs[0].elapsed / 60 == 0 && rs[0].endMinutes >= 1;
      assert OneMinute !in first.fired && AutoStop !in first.fired;
      OneMinuteAlertOnce(first.state, rs[1..], i - 1);
      SkipTick(s, rs, OneMinute);
    }
  }

  /** In a session of nondecreasing readings of one speech length that
      reaches the last minute of the speech, the near-end alert fires exactly
      once. */
  lemma {:induction false} NearEndAlertOnce(s: TimerState, rs: seq<Reading>, endMinutes: nat, i: nat)
    requires s.running && !s.secondFlash && endMinutes >= 1
    requires Nondecreasing(rs) && OneLength(rs, endMinutes)
    requires i < |rs| && rs[i].elapsed / 60 == endMinutes - 1
    ensures multiset(RunReadings(s, rs).fired)[NearEnd] == 1
    decreases |rs|
  {
    if i == 0 || rs[0].elapsed / 60 == endMinutes - 1 {
      FiresAtFirstTick(s, rs, NearEnd);
    } else {
      ReadingsTail(rs, i, endMinutes);
      var first := First(s, rs);
      assert rs[0].elapsed / 60 < endMinutes - 1 && rs[0].endMinutes == endMinutes;
      assert NearEnd !in first.fired && AutoStop !in first.fired;
      NearEndAlertOnce(first.state, rs[1..], endMinutes, i - 1);
      SkipTick(s, rs, NearEnd);
    }
  }

  /** A tick in the end alert's window: at or past the end minute, with a
      non-zero seconds field. */
  predicate PastEnd(elapsed: nat, endMinutes: nat) {
    elapsed / 60 >= endMinutes && elapsed % 60 > 0
  }

  /** A tick in the auto-stop window: at or past the end minute, more than
      15 seconds into the minute. */
  predicate Late(elapsed: nat, endMinutes: nat) {
    elapsed / 60 >= endMinutes && elapsed % 60 > 15
  }

  /** In a session whose end flag is clear, the first reading past the end
      (at its own speech length) fires the end alert, exactly once, in any
      order of readings: nothing can stop the session before that. */
  lemma {:induction false} EndAlertOnce(s: TimerState, rs: seq<Reading>, i: nat)
    requires s.running && !s.thirdFlash
    requires i < |rs| && PastEnd(rs[i].elapsed, rs[i].endMinutes)
    ensures multiset(RunReadings(s, rs).fired)[EndReached] == 1
    ensures RunReadings(s, rs).state.thirdFlash
    ensures EndReached in RunReadings(s, rs[..i + 1]).fired
    decreases |rs|
  {
    var first := First(s, rs);
    ClearTick(s, rs[0].elapsed, rs[0].endMinutes);
    if i == 0 || PastEnd(rs[0].elapsed, rs[0].endMinutes) {
      FiresAtFirstTick(s, rs, EndReached);
    } else {
      assert rs[1..][i - 1] == rs[i];
      EndAlertOnce(first.state, rs[1..], i - 1);
      SkipTick(s, rs, EndReached);
    }
    EndAlertBy(s, rs, i);
  }

  /** The readings up to and including the `i`-th are its first reading
      followed by the next `i`. */
  lemma PrefixFirst(s: TimerState, rs: seq<Reading>, i: nat)
    requires i < |rs|
    ensures RunReadings(s, rs[..i + 1])
         == Step(RunReadings(First(s, rs).state, rs[1..][..i]).state,
                 First(s, rs).fired + RunReadings(First(s, rs).state, rs[1..][..i]).fired)
  {
    var prefix := rs[..i + 1];
    assert prefix[0] == rs[0] && prefix[1..] == rs[1..][..i];
  }

  /** Once the end flag is set, a running session is stopped by the end of
      any late reading: the readings up to and including it leave it
      stopped. */
  lemma {:induction false} FlaggedStopsBy(s: TimerState, rs: seq<Reading>, i: nat)
    requires s.running && s.thirdFlash
    requires i < |rs| && Late(rs[i].elapsed, rs[i].endMinutes)
    ensures !RunReadings(s, rs[..i + 1]).state.running
    decreases i
  {
    var first := First(s, rs);
    PrefixFirst(s, rs, i);
    FlaggedTick(s, rs[0].elapsed, rs[0].endMinutes);
    if !(i == 0 || Late(rs[0].elapsed, rs[0].endMinutes)) {
      assert rs[1..][i - 1] == rs[i];
      FlaggedStopsBy(first.state, rs[1..], i - 1);
    }
  }

  /** In a session whose end flag is clear, the end alert has fired by the
      end of any reading past the end. */
  lemma {:induction false} EndAlertBy(s: TimerState, rs: seq<Reading>, i: nat)
    requires s.running && !s.thirdFlash
    requires i < |rs| && PastEnd(rs[i].elapsed, rs[i].endMinutes)
    ensures EndReached in RunReadings(s, rs[..i + 1]).fired
    decreases i
  {
    var first := First(s, rs);
    ClearTick(s, rs[0].elapsed, rs[0].endMinutes);
    if !(i == 0 || PastEnd(rs[0].elapsed, rs[0].endMinutes)) {
      assert rs[1..][i - 1] == rs[i];
      EndAlertBy(first.state, rs[1..], i - 1);
    }
    PrefixFirst(s, rs, i);
  }

  /** Once the end flag is set, a running session skips the end alert and
      stops at its first late reading, with the auto-stop alert: it is
      stopped by the end of every late reading. */
  lemma {:induction false} FlaggedSessionStopsAtFirstLateTick(s: TimerState, rs: seq<Reading>, i: nat)
    requires s.running && s.thirdFlash
    requires i < |rs| && Late(rs[i].elapsed, rs[i].endMinutes)
    ensures !RunReadings(s, rs).state.running
    ensures EndReached !in RunReadings(s, rs).fired
    ensures multiset(RunReadings(s, rs).fired)[AutoStop] == 1
    ensures !RunReadings(s, rs[..i + 1]).state.running
    decreases |rs|
  {
    FlaggedStopsBy(s, rs, i);
    QuietReadings(s, rs, EndReached);
    if i == 0 || Late(rs[0].elapsed, rs[0].endMinutes) {
      FiresAtFirstTick(s, rs, AutoStop);
    } else {
      var first := First(s, rs);
      assert rs[1..][i - 1] == rs[i];
      FlaggedSessionStopsAtFirstLateTick(first.state, rs[1..], i - 1);
      SkipTick(s, rs, AutoStop);
    }
  }

  /** A session whose end flag is clear stops by its second late reading:
      the first fires the end alert (if nothing earlier did), the next
      stops. */
  lemma {:induction false} SessionStopsBySecondLateTick(s: TimerState, rs: seq<Reading>, i: nat, j: nat)
    requires s.running && !s.thirdFlash
    requires i < j < |rs|
    requires Late(rs[i].elapsed, rs[i].endMinutes) && Late(rs[j].elapsed, rs[j].endMinutes)
    ensures !RunReadings(s, rs).state.running
    ensures multiset(RunReadings(s, rs).fired)[EndReached] == 1
    ensures multiset(RunReadings(s, rs).fired)[AutoStop] == 1
    decreases |rs|
  {
    if i == 0 || PastEnd(rs[0].elapsed, rs[0].endMinutes) {
      StopsAfterEndTick(s, rs, j);
    } else {
      var first := First(s, rs);
      assert rs[1..][i - 1] == rs[i] && rs[1..][j - 1] == rs[j];
      ClearTick(s, rs[0].elapsed, rs[0].endMinutes);
      SessionStopsBySecondLateTick(first.state, rs[1..], i - 1, j - 1);
      SkipTick(s, rs, EndReached);
      SkipTick(s, rs, AutoStop);
    }
  }

  /** A session whose first reading fires the end alert stops at the next
      late reading, with the auto-stop alert and no second end alert. */
  lemma StopsAfterEndTick(s: TimerState, rs: seq<Reading>, j: nat)
    requires s.running && !s.thirdFlash
    requires 0 < j < |rs| && PastEnd(rs[0].elapsed, rs[0].endMinutes)
    requires Late(rs[j].elapsed, rs[j].endMinutes)
    ensures !RunReadings(s, rs).state.running
    ensures multiset(RunReadings(s, rs).fired)[EndReached] == 1
    ensures multiset(RunReadings(s, rs).fired)[AutoStop] == 1
  {
    var first := First(s, rs);
    assert rs[1..][j - 1] == rs[j];
    ClearTick(s, rs[0].elapsed, rs[0].endMinutes);
    UnflaggedTick(s, rs[0].elapsed, rs[0].endMinutes);
    FlaggedSessionStopsAtFirstLateTick(first.state, rs[1..], j - 1);
    var rest := RunReadings(first.state, rs[1..]);
    assert RunReadings(s, rs).state == rest.state;
    assert RunReadings(s, rs).fired == first.fired + rest.fired;
    CountAppend(first.fired, rest.fired, EndReached);
    CountAppend(first.fired, rest.fired, AutoStop);
  }

  /** A tick of a running session whose end flag is set stops it exactly
      when it is late, and never fires the end alert. */
  lemma FlaggedTick(s: TimerState, elapsed: nat, endMinutes: nat)
    requires s.running && s.thirdFlash
    ensures EndReached !in Advance(s, elapsed, endMinutes).fired
    ensures Advance(s, elapsed, endMinutes).state.thirdFlash
    ensures Late(elapsed, endMinutes) <==> AutoStop in Advance(s, elapsed, endMinutes).fired
    ensures Advance(s, elapsed, endMinutes).state.running <==> !Late(elapsed, endMinutes)
  {
  }

  /** A tick of a running session whose end flag is clear never stops it,
      and fires the end alert and sets the flag exactly when it is past the
      end. */
  lemma ClearTick(s: TimerState, elapsed: nat, endMinutes: nat)
    requires s.running && !s.thirdFlash
    ensures AutoStop !in Advance(s, elapsed, endMinutes).fired
    ensures Advance(s, elapsed, endMinutes).state.running
    ensures PastEnd(elapsed, endMinutes) <==> EndReached in Advance(s, elapsed, endMinutes).fired
    ensures Advance(s, elapsed, endMinutes).state.thirdFlash == PastEnd(elapsed, endMinutes)
  {
  }

  /** Such a tick fires the end alert at most once, and a late tick is past
      the end. */
  lemma UnflaggedTick(s: TimerState, elapsed: nat, endMinutes: nat)
    requires s.running && !s.thirdFlash
    ensures multiset(Advance(s, elapsed, endMinutes).fired)[EndReached] == if PastEnd(elapsed, endMinutes) then 1 else 0
    ensures Late(elapsed, endMinutes) ==> PastEnd(elapsed, endMinutes)
  {
    ClearTick(s, elapsed, endMinutes);
    RankedHasNoRepeats(Advance(s, elapsed, endMinutes).fired, EndReached);
  }

  /** A run of actions: the final state, the milestones the ticks fired
      and every event issued. */
  datatype RunResult = RunResult(state: TimerState, fired: seq<Milestone>, events: seq<Event>)

  /** What the user and the tick timer do to the controller. The preferences
      travel with each action, since the pickers stay live during a session. */
  datatype Action =
    | PressStartStop
    | PressTestAlert(signal: Signal)
    | TickAt(elapsed: nat, endMinutes: nat, signal: Signal)

  /** The controller's invariant: a tick timer is held exactly while a
      session runs, and a stopped controller has its first two flags clear. */
  predicate Invariant(s: TimerState) {
    && Consistent(s)
    && (!s.running ==> !s.firstFlash && !s.secondFlash)
  }

  /** Runs a sequence of actions. `fired` lists the milestones the ticks
      fired; `events` also holds the test alerts the enabled button issued. */
  function Execute(s: TimerState, actions: seq<Action>): (r: RunResult)
    ensures Invariant(s) ==> Invariant(r.state)
    ensures r.state.thirdFlash == (s.thirdFlash || EndReached in r.fired)
    ensures s.thirdFlash ==> EndReached !in r.fired
    decreases |actions|
  {
    if |actions| == 0 then
      RunResult(s, [], [])
    else
      var rest := Execute(StepState(s, actions[0]), actions[1..]);
      var head := StepOutput(s, actions[0]);
      RunResult(rest.state, head.fired + rest.fired, head.events + rest.events)
  }

  /** The state after one action. */
  function StepState(s: TimerState, a: Action): (r: TimerState)
    ensures Invariant(s) ==> Invariant(r)
    ensures r.thirdFlash == (s.thirdFlash || EndReached in StepOutput(s, a).fired)
    ensures s.thirdFlash ==> EndReached !in StepOutput(s, a).fired
    ensures r == StepOutput(s, a).state
  {
    match a
    case PressStartStop => Press(s)
    case PressTestAlert(_) => s
    case TickAt(elapsed, endMinutes, signal) => Tick(s, elapsed, endMinutes, signal).state
  }

  /** The state, milestones and events of one action. */
  function StepOutput(s: TimerState, a: Action): RunResult {
    match a
    case PressStartStop => RunResult(Press(s), [], [])
    case PressTestAlert(signal) =>
      var shown := TestAlert(s, signal);
      RunResult(s, [], if shown.Some? then shown.value else [])
    case TickAt(elapsed, endMinutes, signal) =>
      var t := Tick(s, elapsed, endMinutes, signal);
      RunResult(t.state, t.fired, t.events)
  }

  /** The invariant holds on the first screen, so on every reachable state;
      starting a session therefore begins with the first two flags clear,
      and only the end flag can carry over from an earlier session. */
  lemma StartFromReachable(s: TimerState, actions: seq<Action>)
    requires s == Execute(Initial, actions).state
    requires !s.running
    ensures Press(s).running && Press(s).timerSet
    ensures !Press(s).firstFlash && !Press(s).secondFlash
    ensures Press(s).thirdFlash == (EndReached in Execute(Initial, actions).fired)
  {
  }

  /** Once any session has had its end alert, no later session ever gets it:
      the end flag survives stops, auto-stops and restarts. */
  lemma EndAlertOncePerLaunch(s: TimerState, before: seq<Action>, after: seq<Action>)
    requires EndReached in Execute(s, before).fired
    ensures EndReached !in Execute(Execute(s, before).state, after).fired
  {
  }

  /** Stopping and immediately restarting gives a running session with the
      first two flags clear and the end flag as it was. */
  lemma StopThenStart(s: TimerState)
    requires s.running
    ensures Press(Press(s)).running && Press(Press(s)).timerSet
    ensures !Press(Press(s)).firstFlash && !Press(Press(s)).secondFlash
    ensures Press(Press(s)).thirdFlash == s.thirdFlash
  {
  }
}

=== FILE: timer.dfy ===
/**
 The debate timer's controller: the Start/Stop button, the Test Alert
 button and the periodic tick that updates the display and fires the
 milestone alerts. Elapsed time reaches `Tick` as whole seconds since the
 session's start; `endMinutes` and `signal` are the two stored preferences,
 read afresh on every call.
 */
module Timer {
  import opened Alerts
  import opened Options
  import Display

  /** `running` stands for a start instant being present, `timerSet` for a
      tick timer being held; the three flags record which milestone alerts
      have fired. */
  datatype TimerState = TimerState(
    running: bool,
    timerSet: bool,
    firstFlash: bool,
    secondFlash: bool,
    thirdFlash: bool)

  /** The state when the screen first appears. */
  const Initial := TimerState(false, false, false, false, false)

  /** A start instant is held exactly when a tick timer is held. */
  predicate Consistent(s: TimerState) {
    s.timerSet == s.running
  }

  /** The Start/Stop button. Stopping drops the session and the first two
      flags but keeps the end flag; starting sets up a session and keeps
      every flag as it was. */
  function Press(s: TimerState): (r: TimerState)
    ensures r.running == !s.running
    ensures Consistent(r)
    ensures s.running ==> !r.firstFlash && !r.secondFlash
    ensures !s.running ==> r.firstFlash == s.firstFlash && r.secondFlash == s.secondFlash
    ensures r.thirdFlash == s.thirdFlash
  {
    if s.running then
      s.(running := false, timerSet := false, firstFlash := false, secondFlash := false)
    else
      s.(running := true, timerSet := true)
  }

  /** The Test Alert button: disabled while a tick timer is held, otherwise
      one alert with no change of state. */
  function TestAlert(s: TimerState, signal: Signal): (r: Option<seq<Event>>)
    ensures r.Some? <==> !s.timerSet
    ensures r.Some? ==> |r.value| >= 1 && r.value[0] == ScreenFlash && r.value[1..] == VibrateSound(signal)
  {
    if s.timerSet then None else Some(Alert(signal))
  }

  /** Under the consistency invariant the test button works exactly when no
      session runs. */
  lemma TestAlertEnabledIffStopped(s: TimerState, signal: Signal)
    requires Consistent(s)
    ensures TestAlert(s, signal).Some? <==> !s.running
  {
  }

  /** The milestone rules of a tick, in the order the code checks them. */
  datatype Milestone =
    | OneMinute    // one minute elapsed
    | NearEnd      // one minute to go
    | EndReached   // past the end, first alert
    | AutoStop     // more than 15 s into a minute past the end, with the end flag set

  function Rank(m: Milestone): nat {
    match m
    case OneMinute => 0
    case NearEnd => 1
    case EndReached => 2
    case AutoStop => 3
  }

  /** Listed in strictly increasing rule order, hence each at most once. */
  predicate Ranked(ms: seq<Milestone>)
    decreases |ms|
  {
    |ms| <= 1 || (Rank(ms[0]) < Rank(ms[1]) && Ranked(ms[1..]))
  }

  /** In a ranked list the head outranks nothing after it. */
  lemma {:induction false} RankedHeadIsLeast(ms: seq<Milestone>, k: nat)
    requires Ranked(ms) && 0 < k < |ms|
    ensures Rank(ms[0]) < Rank(ms[k])
    decreases k
  {
    if k > 1 {
      RankedHeadIsLeast(ms[1..], k - 1);
    }
  }

  /** The alert a milestone issues. */
  function AlertFor(m: Milestone, signal: Signal): seq<Event> {
    match m
    case OneMinute => Alert(signal)
    case NearEnd => Alert(signal)
    case EndReached => TripleAlert(signal)
    case AutoStop => TripleAlert(signal)
  }

  /** Every milestone's alert flashes and carries the signal's feedback;
      only the end milestones schedule the repeat flashes. */
  lemma AlertForChannels(m: Milestone, signal: Signal)
    ensures ScreenFlash in AlertFor(m, signal)
    ensures Haptic in AlertFor(m, signal) <==> signal == Vibrate || signal == Sound
    ensures SystemSound(ChimeSoundId) in AlertFor(m, signal) <==> signal == Sound
    ensures DelayedFlash(FirstRepeatMs) in AlertFor(m, signal) <==> m == EndReached || m == AutoStop
  {
    VibrateSoundChannels(signal);
    AlertShape(signal);
    var a := Alert(signal);
    assert a == [ScreenFlash] + VibrateSound(signal);
    assert TripleAlert(signal) == a + [DelayedFlash(FirstRepeatMs), DelayedFlash(SecondRepeatMs)];
  }

  /** Only the end-alert and auto-stop branches schedule repeat flashes, of
      any delay. */
  lemma AlertForRepeats(m: Milestone, signal: Signal)
    ensures SchedulesRepeat(AlertFor(m, signal)) <==> m == EndReached || m == AutoStop
  {
    AlertRepeats(signal);
  }

  /** The events a sequence of milestones issues, one alert after another. */
  function EventsOf(fired: seq<Milestone>, signal: Signal): seq<Event>
    decreases |fired|
  {
    if |fired| == 0 then [] else AlertFor(fired[0], signal) + EventsOf(fired[1..], signal)
  }

  /** The outcome of one rule, one tick or a whole run of ticks: the state
      afterwards and the milestones fired, in order. */
  datatype Step = Step(state: TimerState, fired: seq<Milestone>)

  /** First rule: one minute has elapsed. */
  function OneMinuteRule(s: TimerState, mins: nat): (r: Step)
    ensures r.fired == [] || r.fired == [OneMinute]
    ensures r.fired == [OneMinute] <==> mins == 1 && !s.firstFlash
    ensures r.state.firstFlash == (s.firstFlash || r.fired != [])
    ensures r.state.running == s.running && r.state.timerSet == s.timerSet
    ensures r.state.secondFlash == s.secondFlash && r.state.thirdFlash == s.thirdFlash
  {
    if mins == 1 && !s.firstFlash then
      Step(s.(firstFlash := true), [OneMinute])
    else
      Step(s, [])
  }

  /** Second rule: one minute remains. */
  function NearEndRule(s: TimerState, mins: nat, endMinutes: nat): (r: Step)
    ensures r.fired == [] || r.fired == [NearEnd]
    ensures r.fired == [NearEnd] <==> mins == endMinutes - 1 && !s.secondFlash
    ensures r.state.secondFlash == (s.secondFlash || r.fired != [])
    ensures r.state.running == s.running && r.state.timerSet == s.timerSet
    ensures r.state.firstFlash == s.firstFlash && r.state.thirdFlash == s.thirdFlash
  {
    if mins == endMinutes - 1 && !s.secondFlash then
      Step(s.(secondFlash := true), [NearEnd])
    else
      Step(s, [])
  }

  /** Third rule: the end has been reached. Its first branch needs a
      non-zero seconds field and an unset end flag; its fallback branch
      needs more than 15 seconds and stops the session. */
  function EndRule(s: TimerState, mins: nat, secs: nat, endMinutes: nat): (r: Step)
    ensures r.fired == [] || r.fired == [EndReached] || r.fired == [AutoStop]
    ensures r.fired == [EndReached] <==> mins >= endMinutes && secs > 0 && !s.thirdFlash
    ensures r.fired == [AutoStop] <==> mins >= endMinutes && secs > 15 && s.thirdFlash
    ensures r.state.thirdFlash == (s.thirdFlash || r.fired == [EndReached])
    ensures r.fired != [AutoStop] ==>
              && r.state.running == s.running && r.state.timerSet == s.timerSet
              && r.state.firstFlash == s.firstFlash && r.state.secondFlash == s.secondFlash
    ensures r.fired == [AutoStop] ==>
              !r.state.running && !r.state.timerSet && !r.state.firstFlash && !r.state.secondFlash
  {
    if mins >= endMinutes then
      if secs > 0 && !s.thirdFlash then
        Step(s.(thirdFlash := true), [EndReached])
      else if secs > 15 then
        Step(s.(timerSet := false, firstFlash := false, secondFlash := false, running := false),
             [AutoStop])
      else
        Step(s, [])
    else
      Step(s, [])
  }

  /** The milestones the three rules can fire together, in rule order. */
  lemma RulesOutcome(one: seq<Milestone>, near: seq<Milestone>, end: seq<Milestone>)
    requires one == [] || one == [OneMinute]
    requires near == [] || near == [NearEnd]
    requires end == [] || end == [EndReached] || end == [AutoStop]
    ensures OneMinute in one + near + end <==> one != []
    ensures NearEnd in one + near + end <==> near != []
    ensures EndReached in one + near + end <==> end == [EndReached]
    ensures AutoStop in one + near + end <==> end == [AutoStop]
    ensures Ranked(one + near + end)
  {
  }

  /** The three rules run one after the other on a running controller. */
  function Rules(s: TimerState, mins: nat, secs: nat, endMinutes: nat): (r: Step)
    ensures OneMinute in r.fired <==> mins == 1 && !s.firstFlash
    ensures NearEnd in r.fired <==> mins == endMinutes - 1 && !s.secondFlash
    ensures EndReached in r.fired <==> mins >= endMinutes && secs > 0 && !s.thirdFlash
    ensures AutoStop in r.fired <==> mins >= endMinutes && secs > 15 && s.thirdFlash
    ensures Ranked(r.fired)
    ensures r.state.thirdFlash == (s.thirdFlash || EndReached in r.fired)
    ensures r.state.running == (s.running && AutoStop !in r.fired)
    ensures r.state.timerSet == (s.timerSet && AutoStop !in r.fired)
    ensures r.state.firstFlash == ((s.firstFlash || OneMinute in r.fired) && AutoStop !in r.fired)
    ensures r.state.secondFlash == ((s.secondFlash || NearEnd in r.fired) && AutoStop !in r.fired)
  {
    var one := OneMinuteRule(s, mins);
    var near := NearEndRule(one.state, mins, endMinutes);
    var end := EndRule(near.state, mins, secs, endMinutes);
    var fired := one.fired + near.fired + end.fired;
    RulesOutcome(one.fired, near.fired, end.fired);
    Step(end.state, fired)
  }

  /** The rule engine of one tick, `elapsed` seconds after the session
      started: the state after it and the milestones that fired. */
  function Advance(s: TimerState, elapsed: nat, endMinutes: nat): (r: Step)
    // A stopped controller ignores ticks altogether.
    ensures !s.running ==> r.state == s && r.fired == []
    // Each rule fires exactly under its condition.
    ensures OneMinute in r.fired <==> s.running && elapsed / 60 == 1 && !s.firstFlash
    ensures NearEnd in r.fired <==> s.running && elapsed / 60 == endMinutes - 1 && !s.secondFlash
    ensures EndReached in r.fired
      <==> s.running && elapsed / 60 >= endMinutes && elapsed % 60 > 0 && !s.thirdFlash
    ensures AutoStop in r.fired
      <==> s.running && elapsed / 60 >= endMinutes && elapsed % 60 > 15 && s.thirdFlash
    // Rules fire at most once each, in the order they are checked.
    ensures Ranked(r.fired)
    // How the state moves: the end flag is only ever set, and an auto-stop
    // drops the session and the first two flags.
    ensures r.state.thirdFlash == (s.thirdFlash || EndReached in r.fired)
    ensures r.state.running == (s.running && AutoStop !in r.fired)
    ensures r.state.timerSet == (s.timerSet && AutoStop !in r.fired)
    ensures r.state.firstFlash == ((s.firstFlash || OneMinute in r.fired) && AutoStop !in r.fired)
    ensures r.state.secondFlash == ((s.secondFlash || NearEnd in r.fired) && AutoStop !in r.fired)
    ensures Consistent(s) ==> Consistent(r.state)
  {
    if !s.running then
      Step(s, [])
    else
      Rules(s, Display.Minutes(elapsed), Display.Seconds(elapsed), endMinutes)
  }

  /** What a tick produces: the new state, the new display text (None when
      the display is left alone), the milestones that fired, and the events
      issued. */
  datatype TickResult = TickResult(
    state: TimerState,
    display: Option<string>,
    fired: seq<Milestone>,
    events: seq<Event>)

  /** One call of the periodic timer callback: the rule engine's outcome,
      the display text while a session runs, and each fired milestone's
      alert in rule order. */
  function Tick(s: TimerState, elapsed: nat, endMinutes: nat, signal: Signal): (r: TickResult)
    ensures r.state == Advance(s, elapsed, endMinutes).state
    ensures r.fired == Advance(s, elapsed, endMinutes).fired
    ensures !s.running ==> r.display.None? && r.events == []
    ensures s.running ==> r.display.Some? && Display.Parse(r.display.value) == Some(elapsed)
  {
    var step := Advance(s, elapsed, endMinutes);
    if !s.running then
      TickResult(s, None, [], [])
    else
      Display.ParseFormat(elapsed);
      TickResult(step.state, Some(Display.Format(elapsed)), step.fired, EventsOf(step.fired, signal))
  }

  /** When milestone `m` is due on a tick at `elapsed` seconds, stated from
      the state before the tick alone. */
  predicate Due(s: TimerState, elapsed: nat, endMinutes: nat, m: Milestone) {
    && s.running
    && match m
       case OneMinute => elapsed / 60 == 1 && !s.firstFlash
       case NearEnd => elapsed / 60 == endMinutes - 1 && !s.secondFlash
       case EndReached => elapsed / 60 >= endMinutes && elapsed % 60 > 0 && !s.thirdFlash
       case AutoStop => elapsed / 60 >= endMinutes && elapsed % 60 > 15 && s.thirdFlash
  }

  /** `[m]` when `m` is due, else nothing. */
  function IfDue(s: TimerState, elapsed: nat, endMinutes: nat, m: Milestone): seq<Milestone> {
    if Due(s, elapsed, endMinutes, m) then [m] else []
  }

  /** The due milestones, listed in the order a tick checks them. */
  function DueInRuleOrder(s: TimerState, elapsed: nat, endMinutes: nat): seq<Milestone> {
    IfDue(s, elapsed, endMinutes, OneMinute) + IfDue(s, elapsed, endMinutes, NearEnd)
    + IfDue(s, elapsed, endMinutes, EndReached) + IfDue(s, elapsed, endMinutes, AutoStop)
  }

  /** The three rules fire their milestones in rule order, each exactly
      under its own condition. */
  lemma RulesFired(s: TimerState, mins: nat, secs: nat, endMinutes: nat)
    ensures Rules(s, mins, secs, endMinutes).fired
         == (if mins == 1 && !s.firstFlash then [OneMinute] else [])
          + (if mins == endMinutes - 1 && !s.secondFlash then [NearEnd] else [])
          + (if mins >= endMinutes && secs > 0 && !s.thirdFlash then [EndReached] else [])
          + (if mins >= endMinutes && secs > 15 && s.thirdFlash then [AutoStop] else [])
  {
    var one := OneMinuteRule(s, mins);
    var near := NearEndRule(one.state, mins, endMinutes);
    var end := EndRule(near.state, mins, secs, endMinutes);
    assert end.fired == (if mins >= endMinutes && secs > 0 && !s.thirdFlash then [EndReached] else [])
                      + (if mins >= endMinutes && secs > 15 && s.thirdFlash then [AutoStop] else []);
  }

  /** A tick fires exactly the milestones that are due, in rule order. */
  lemma FiresDue(s: TimerState, elapsed: nat, endMinutes: nat)
    ensures Advance(s, elapsed, endMinutes).fired == DueInRuleOrder(s, elapsed, endMinutes)
  {
    if s.running {
      RulesFired(s, Display.Minutes(elapsed), Display.Seconds(elapsed), endMinutes);
    }
  }

  /** The fallback branch of the end rule is reached only with the end flag
      already set: a session that has not had its end alert gets the end
      alert, never the auto-stop. */
  lemma AutoStopNeedsEndFlag(s: TimerState, elapsed: nat, endMinutes: nat)
    requires AutoStop in Advance(s, elapsed, endMinutes).fired
    ensures s.thirdFlash && s.running
    ensures EndReached !in Advance(s, elapsed, endMinutes).fired
  {
  }

  /** At exactly a whole minute past the end neither end branch fires. */
  lemma NothingAtWholeMinute(s: TimerState, elapsed: nat, endMinutes: nat)
    requires elapsed % 60 == 0
    ensures EndReached !in Advance(s, elapsed, endMinutes).fired
    ensures AutoStop !in Advance(s, elapsed, endMinutes).fired
    ensures Advance(s, elapsed, endMinutes).state.running == s.running
  {
  }

  /** The alerts of a sequence of milestones: a flash whenever anything
      fired, the signal's feedback with it, and the delayed repeat flashes
      exactly when an end milestone fired. */
  lemma {:induction false} EventsOfChannels(fired: seq<Milestone>, signal: Signal)
    ensures ScreenFlash in EventsOf(fired, signal) <==> fired != []
    ensures Haptic in EventsOf(fired, signal) <==> fired != [] && (signal == Vibrate || signal == Sound)
    ensures SystemSound(ChimeSoundId) in EventsOf(fired, signal) <==> fired != [] && signal == Sound
    ensures DelayedFlash(FirstRepeatMs) in EventsOf(fired, signal) <==> EndReached in fired || AutoStop in fired
    decreases |fired|
  {
    if fired != [] {
      var head := AlertFor(fired[0], signal);
      var rest := EventsOf(fired[1..], signal);
      assert EventsOf(fired, signal) == head + rest;
      EventsOfChannels(fired[1..], signal);
      AlertForChannels(fired[0], signal);
      assert fired == [fired[0]] + fired[1..];
    }
  }

  /** The events of a sequence of milestones schedule repeat flashes, of any
      delay, exactly when an end milestone is among them. */
  lemma {:induction false} EventsOfRepeats(fired: seq<Milestone>, signal: Signal)
    ensures SchedulesRepeat(EventsOf(fired, signal)) <==> EndReached in fired || AutoStop in fired
    decreases |fired|
  {
    if fired != [] {
      var head := AlertFor(fired[0], signal);
      var rest := EventsOf(fired[1..], signal);
      assert EventsOf(fired, signal) == head + rest;
      SchedulesRepeatAppend(head, rest);
      EventsOfRepeats(fired[1..], signal);
      AlertForRepeats(fired[0], signal);
      assert fired == [fired[0]] + fired[1..];
    }
  }

  /** What a tick issues: each fired milestone's alert in rule order, so a
      flash exactly when a milestone fired, the signal's feedback with it,
      delayed repeat flashes exactly for the end milestones, and a white
      screen right after. */
  lemma TickEvents(s: TimerState, elapsed: nat, endMinutes: nat, signal: Signal, c: Colour)
    ensures Tick(s, elapsed, endMinutes, signal).events == EventsOf(Tick(s, elapsed, endMinutes, signal).fired, signal)
    ensures var t := Tick(s, elapsed, endMinutes, signal);
            && (ScreenFlash in t.events <==> t.fired != [])
            && (Haptic in t.events <==> t.fired != [] && (signal == Vibrate || signal == Sound))
            && (SystemSound(ChimeSoundId) in t.events <==> t.fired != [] && signal == Sound)
            && (DelayedFlash(FirstRepeatMs) in t.events <==> EndReached in t.fired || AutoStop in t.fired)
            && (SchedulesRepeat(t.events) <==> EndReached in t.fired || AutoStop in t.fired)
            && (ScreenAfter(c, t.events) == White <==> c == White || t.fired != [])
  {
    var t := Tick(s, elapsed, endMinutes, signal);
    EventsOfChannels(t.fired, signal);
    EventsOfRepeats(t.fired, signal);
  }

  /** With a two-minute speech the one-minute and the near-end alerts are due
      on the same tick; both fire, the one-minute alert first. */
  lemma TwoMinuteSpeechDoubleAlert(s: TimerState, elapsed: nat, signal: Signal)
    requires s.running && !s.firstFlash && !s.secondFlash
    requires elapsed / 60 == 1
    ensures Tick(s, elapsed, 2, signal).fired == [OneMinute, NearEnd]
    ensures Tick(s, elapsed, 2, signal).events == Alert(signal) + Alert(signal)
  {
    var secs := elapsed % 60;
    var one := OneMinuteRule(s, 1);
    var near := NearEndRule(one.state, 1, 2);
    var end := EndRule(near.state, 1, secs, 2);
    assert one.fired + near.fired + end.fired == [OneMinute, NearEnd];
    var step := Rules(s, 1, secs, 2);
    assert step.fired == [OneMinute, NearEnd];
    assert EventsOf([OneMinute, NearEnd], signal) == Alert(signal) + Alert(signal) by {
      assert [OneMinute, NearEnd][1..] == [NearEnd];
    }
  }
}
